=== FILE: README.md ===
# mcpdf form core, modelled in Dafny

mcpdf is a model-context-protocol server that lets an AI client open a PDF,
list its interactive form fields, fill them, draw free text on pages, read
page text and save the result. This project models the logic of that server
that is more than a call into a library:

- the **field catalogue** (`src/pdf/fields.ts`): a document's fields as a
  closed variant type (text, checkbox, radio group, dropdown, unrecognised),
  type detection, value and option extraction, page resolution, lookup by
  name and filtering by page;
- **filling** (`src/pdf/writer.ts`): the ordered checks (field exists, not
  read-only), per-type coercion (`String(value).trim()` for text, `"true"`
  for checkboxes, option membership for radio groups and dropdowns), and the
  default-output-name rule and same-path guard of saving;
- the **text overlay** (`src/pdf/overlay.ts`): page, then x, then y
  validation with inclusive bounds, defaults, and the per-document font cache;
- the **session store** (`src/state/session.ts`) as an `Option<PdfSession>`
  with set, get, mark-modified, clear and is-active;
- the **`fill_field` tool** (`src/tools/fillField.ts`): read-only refusal
  before any elicitation, the schema chosen by field type, and the decision
  between fill-and-mark-modified, decline, and error response;
- **loading** (`src/pdf/reader.ts`, `src/pdf/text.ts`): the fixed order
  exists → `.pdf` suffix → size limit (50 MiB, inclusive) → read → parse,
  system errors of `stat` and `readFile` escaping as plain errors, the
  protected/invalid classification of parse errors, and the metadata
  reported;
- **text extraction** (`src/pdf/text.ts`): page-range checks, the parts
  joined with single spaces, and positioned items taken from the transform's
  translation;
- **error formatting** (`src/utils/errors.ts`).

The library objects (pdf-lib documents and fields, pdfjs text items) are
datatypes holding only what the code reads from them. Everything the code
gets from the environment — file existence, size, parse outcome, path
resolution, the client's elicitation answer, what a font embedding returns,
the outcome of writing bytes — is an argument.

Modules follow the source files: `Fields`, `Writer`, `Overlay`, `Session`,
`FillTool`, `Loader`, `TextExtraction`, `PdfErrors`/`ToolErrors`, plus the
helpers `Wrappers` (Option/Result), `Seqs` (find/filter/map) and `JsStrings`
(the JavaScript string operations used: `trim`, `toLowerCase`, `endsWith`,
`includes`, `join`).

Notes on the model against the code:

- `detectFieldType` and `extractFieldValue` appear verbatim in both
  `src/pdf/writer.ts:29-70` and `src/pdf/fields.ts:50-91`; they are defined
  once, in `Fields`. `fillRadioGroup` and `fillDropdown` are identical and
  are one `Writer.FillChoice`. The open checks of `loadPdf` and
  `loadPdfForText` differ only in the keyword marking a protected file
  ("encrypted" / "password") and are one `Loader.OpenChecked`.
- An unrecognised field class (push button, list box, signature) is
  reported as type Text. Filling it reports the trimmed string form of the
  value as the new value but writes nothing (`src/pdf/writer.ts:203-207`);
  `Writer.FillUnrecognisedWritesNothing` states this.
- The repository's documentation (and its session tests) say that asking
  for the active session with none open fails with a session error; the
  code throws a plain `Error` with the
  message "No active PDF session" (`src/state/session.ts:37`). The model
  follows the code.
- The repository's documentation centres on a label-inference heuristic for
  `get_field_context`; the code of that tool (`src/tools/getFieldContext.ts`)
  returns a placeholder, so there is nothing to model.
- Setting a text field to the empty string (a value that trims to nothing)
  makes pdf-lib's `setText` remove the field's value rather than store "",
  so the field then reads back as null while the fill reports "" as its new
  value. `Writer.ReadBack` names that read-back value; the fill's
  read-back clauses are stated through it.
- `toLowerCase` is modelled on ASCII letters only. For the three places it is
  used (the `.pdf` suffix, "encrypted", "password") this gives the same
  answers as full Unicode lowering: no character outside A-Z lowers to
  text containing one of the letters involved.

## Model

| member | source | states |
|---|---|---|
| Fields.GetFieldPage | src/pdf/fields.ts:24-42 | The page is always at least 1; with a first-widget page reference that some page carries, it is 1 + the index of the first such page; with no widget, no reference or no matching page it is 1. |
| Fields.DetectFieldType | src/pdf/fields.ts:50-65 | Multiline exactly for multi-line text fields; Checkbox, Radio, Dropdown exactly for their classes; Text exactly for single-line text and unrecognised classes. |
| Fields.ExtractFieldValue | src/pdf/fields.ts:73-91 | A boolean exactly for checkboxes (their state); null exactly when a text or radio field is unset, a dropdown has no selection, or the class is unrecognised; otherwise the text, the selection, or the first selected entry. |
| Fields.ExtractFieldOptions | src/pdf/fields.ts:99-107 | Options are present exactly for dropdowns and radio groups, and are their declared options. |
| Fields.ConvertField | src/pdf/fields.ts:116-129 | The record keeps the field's name, required and read-only flags; its type, current value, options and page are those the type detection, value and option extraction and page resolution give for the field, so the page is at least 1. |
| Fields.OptionsIffChoiceType | src/pdf/fields.ts:116-129 | A record carries options exactly when its reported type is Radio or Dropdown. |
| Fields.ExtractFields | src/pdf/fields.ts:137-142 | Exactly one record per form field, the i-th being the conversion of the i-th field. |
| Fields.FindField | src/pdf/fields.ts:159 | The position found is that of the first field with the name; none is found exactly when no field has it. |
| Fields.FirstNamedUnique | src/pdf/fields.ts:159 | The first field with a given name is unique. |
| Fields.GetFieldByName | src/pdf/fields.ts:152-166 | Fails, with FieldNotFound(name), exactly when no field has the name; otherwise returns the record of the first field with it. |
| Fields.GetFieldsByPage | src/pdf/fields.ts:175-181 | Every returned record is one of the document's and is on the page; every field on the page is returned; a page below 1 or beyond max(1, page count) gives nothing (fields of a document without pages default to page 1). |
| Writer.Stringify | src/pdf/writer.ts:80 | `String(value)`: a string is its own string form; a boolean is "true" exactly when true and "false" exactly when false. |
| Writer.CheckboxReadsStringForm | src/pdf/writer.ts:92-100 | Filling a checkbox with a value's string form gives the same state as filling it with the value. |
| Writer.FillTextField | src/pdf/writer.ts:79-83 | The stored text has no surrounding whitespace: a boolean becomes "true"/"false", a string is trimmed. |
| Writer.FillCheckbox | src/pdf/writer.ts:92-100 | A boolean is taken as given; a string checks the box exactly when it is "true". |
| Writer.FillChoice | src/pdf/writer.ts:111-150 | Succeeds exactly when the value's string form is a declared option, and then selects that string; otherwise fails with InvalidFieldValue(name, value, options). |
| Writer.FillKind | src/pdf/writer.ts:79-207 | Fails only for a choice outside the options, with InvalidFieldValue; the reported value is the type's coercion (trimmed text, checkbox state, the chosen option, which a dropdown then has as its only selection); the new state keeps the field's type and options, and reading it back gives the reported value (null for an emptied text field); an unrecognised field is left unchanged. |
| Writer.FillField | src/pdf/writer.ts:166-215 | FieldNotFound when no field has the name; ReadOnlyField for a read-only first match, before anything is read; otherwise success exactly when the value is admissible, only that field's state changes, to the type-specific fill of the value, whose reported value is returned; type and previous value are those before the fill, and re-reading gives the returned value (null for an emptied text field). |
| Writer.FillThenLookup | src/pdf/writer.ts:186-214 | Filling a writable first-named field with an admissible value succeeds, and looking the field up afterwards gives the same record with only the current value changed, now equal to the reported value as read back (null for an emptied text field) for any recognised kind; the record before the fill held the reported previous value. |
| Fields.SamePage | src/pdf/fields.ts:24-42 | A field's page depends only on the page list and the field's widgets. |
| Writer.FillIdempotent | src/pdf/writer.ts:166-215 | Filling a writable first-named field with an admissible value succeeds; filling the same value again also succeeds, changes nothing, and reports the first fill's value, as read back, as previous. |
| Writer.FillKindIdempotent | src/pdf/writer.ts:192-207 | Re-applying a successful type-specific fill to its result gives the same result. |
| Writer.FillUnrecognisedWritesNothing | src/pdf/writer.ts:203-207 | An unrecognised, writable field is reported as filled with the trimmed string form and type Text while the document is unchanged and still reads null. |
| Writer.DefaultOutputPath | src/pdf/writer.ts:235 | A path ending in ".pdf" (any case) keeps its stem and ends in "_filled.pdf"; any other path is returned unchanged. |
| Writer.DefaultOutputDiffers | src/pdf/writer.ts:235 | The default target differs from the original exactly when the original ends in ".pdf". |
| Writer.SavePdf | src/pdf/writer.ts:229-274 | A target resolving to the original is refused with SaveFailed before any write; otherwise the result is the resolved target and the bytes written, or SaveFailed with the write's message ("Unknown error" when it has none). |
| Writer.SaveWithoutTargetNeedsPdfName | src/pdf/writer.ts:235-248 | Without an explicit target, an original path not ending in ".pdf" is always refused as the same path. |
| Overlay.GetEmbeddedFont | src/pdf/overlay.ts:32-47 | Afterwards the cache maps (document, font) to the returned font; a cached font is returned without embedding and the cache is unchanged; otherwise the new embedding is returned; other documents' and other fonts' entries are unchanged and nothing else is added. |
| Overlay.SecondLookupHitsCache | src/pdf/overlay.ts:39-42 | A second request for the same font of the same document returns the first result without embedding. |
| Overlay.DrawTextOnPage | src/pdf/overlay.ts:58-102 | InvalidPage when the page is outside 1..pageCount; else OutOfBounds on x outside [0, width]; else OutOfBounds on y outside [0, height]; these leave the font cache as it was. Once placement is valid the cache becomes the font lookup's get-or-insert update for this document and font, even when `page.drawText` then throws, whose error escapes as it is; success exactly when placement is valid and the draw does not throw, echoing text, x, y and page with font size 12 and Helvetica as defaults. |
| Overlay.RedrawReusesFont | src/pdf/overlay.ts:32-83 | For two validly placed draws with the same font on the same document, whether or not the first draw throws, the second one started from the cache the first left gives the same answer as from the original cache and leaves that cache unchanged: the font is embedded once. |
| Session.IsSessionActive | src/state/session.ts:62-64 | A session is active exactly when the store has left its start state, i.e. holds a session. |
| Session.GetActiveSession | src/state/session.ts:35-40 | Succeeds exactly when a session is stored, returning it; otherwise fails with the plain error "No active PDF session". |
| Session.SetActiveSession | src/state/session.ts:26-28 | Afterwards a session is active and getting it returns the one set. |
| Session.MarkSessionModified | src/state/session.ts:45-49 | Sets the modified flag of an active session and changes no other part of it; without a session nothing happens. |
| Session.ClearSession | src/state/session.ts:54-56 | Afterwards no session is active and getting one fails. |
| Session.InitiallyInactive | src/state/session.ts:20-40 | At start no session is active and getting one fails. |
| Session.MarkModifiedIdempotent | src/state/session.ts:45-49 | Marking twice equals marking once. |
| FillTool.ValueSchemaFor | src/tools/fillField.ts:37-53 | Boolean schema exactly for checkboxes; an enumeration of the options (or none) exactly for radio groups and dropdowns; a string schema exactly for text and multi-line fields. |
| FillTool.BuildRequest | src/tools/fillField.ts:61-74 | The request has exactly one property, named after the field, with the chosen schema, and requires exactly that property. |
| FillTool.AcceptedValue | src/tools/fillField.ts:79-89 | A value is taken exactly when the reply accepts, its content is a non-array object holding the field name, and the value there is a string or a boolean; it is that value. |
| FillTool.SuccessText | src/tools/fillField.ts:97 | The success message starts with the lead-in and the field's name, contains the new and the previous value texts, and ends with ")". |
| FillTool.ErrorResponse | src/tools/fillField.ts:112-121 | A caught error gives a response flagged as an error whose text is the formatted error. |
| FillTool.PrepareFill | src/tools/fillField.ts:23-74 | No session gives the no-session error; an unknown field FieldNotFound; a read-only field ReadOnlyField; otherwise the request built from the field's schema. |
| FillTool.AnswerRun | src/tools/fillField.ts:78-111 | With no usable value the user is told the fill was declined and the store is unchanged; a value the fill rejects gives an error response with the store unchanged; a successful fill stores the filled document with the modified flag set and reports the new and previous values. |
| FillTool.HandleFillField | src/tools/fillField.ts:21-123 | A failed preparation is an error response with no request sent; a request is sent exactly when preparation succeeds, and it is the prepared request; an error response never changes the store; the store changes only after an accepted usable value, and then holds an active, modified session; a failure to send the request is an error response with the store unchanged. |
| FillTool.HandlerAnswers | src/tools/fillField.ts:78-111 | After a sent and answered request: no usable value gives the declined message with the store unchanged; a value the fill rejects gives that error with the store unchanged; a successful fill is stored, marked modified, and reported. |
| FillTool.ReadOnlyNeverElicits | src/tools/fillField.ts:27-32 | A read-only field is refused with no request sent and the store unchanged. |
| FillTool.AcceptedFillIsVisible | src/tools/fillField.ts:89-91 | After the handler changes the store, it holds the document of a successful fill of the accepted value, the response reports that fill, and looking the field up in the stored document gives the old record with only its current value changed, which for a field of a recognised kind is the reported value as read back. |
| Loader.ClassifyParseFailure | src/pdf/reader.ts:62-76 | A parse failure is ProtectedPdf exactly when it is an Error whose lower-cased message contains the keyword; otherwise InvalidPdf with the message (or the rendering of a non-Error) as reason. |
| Loader.OpenChecked | src/pdf/reader.ts:39-76 | FileNotFound if absent; else NotAPdf without a case-insensitive ".pdf" suffix; else a failing `stat` escapes as a plain error; else FileTooLarge above 50 MiB; else a failing `readFile` escapes as a plain error; else the parse classification; success exactly when every step passes and parsing succeeds. |
| Loader.LoadPdf | src/pdf/reader.ts:35-92 | Fails exactly when opening fails, with the opening error; on success reports the resolved path, the page count, the number of fields, and a form exactly when that number is positive. |
| Loader.SizeLimitInclusive | src/pdf/reader.ts:53-55 | A readable file of exactly 52428800 bytes passes the size check. |
| TextExtraction.LoadPdfForText | src/pdf/text.ts:29-71 | Same ordered checks as loading: FileNotFound, NotAPdf, a failing `stat` as a plain error, FileTooLarge, a failing `readFile` as a plain error; a parse Error is ProtectedPdf exactly when its message mentions "password" in any case, and any other parse failure is InvalidPdf with the message (or the rendering of a non-Error); success exactly when every step passes. |
| TextExtraction.CollectParts | src/pdf/text.ts:97-102 | The parts are the text of every item that has text, in order. |
| TextExtraction.CollectPositioned | src/pdf/text.ts:175-199 | The items kept are the positioned ones, in order; there is one part per kept item and part k is item k's text. |
| TextExtraction.ExtractPageText | src/pdf/text.ts:81-111 | Opening errors pass through; a page outside 1..numPages gives InvalidPage; a page inside it on an opened document always succeeds, with the page's parts joined with single spaces and no items. |
| TextExtraction.ExtractAllText | src/pdf/text.ts:119-146 | Opening errors pass through, and it succeeds exactly when opening does, with one entry per page, numbered 1..numPages in ascending order, each holding that page's joined text. |
| TextExtraction.ExtractTextWithPositions | src/pdf/text.ts:159-209 | Opening errors pass through; a page outside 1..numPages gives InvalidPage; a page inside it on an opened document always succeeds, with the positioned items of the page and text that joins exactly those items' texts. |
| TextExtraction.PositionedItemsFaithful | src/pdf/text.ts:178-199 | Every positioned item comes from a run with text and transform: x and y are the transform's translation, missing width and height are 0. |
| TextExtraction.SameTextWhenAllPositioned | src/pdf/text.ts:97-107 | When every run with text has a transform, both single-page extractors give the same text. |
| ToolErrors.NewSessionError | src/utils/errors.ts:30-33 | A session error keeps its message, and its code is NoSession unless one is given. |
| ToolErrors.FormatToolError | src/utils/errors.ts:39-57 | Any Error formats to exactly its message; a non-Error formats to "Unknown error occurred: " followed by its rendering, which can be read back. |
| JsStrings.LowerAscii | src/pdf/reader.ts:68 | Lowering keeps the length and maps each character on its own, A-Z to a-z and every other character to itself. |
| JsStrings.HasPdfExtension | src/pdf/reader.ts:47 | The extension test holds exactly when the path has at least four characters and its last four lower-case to ".pdf". |
| JsStrings.Trim | src/pdf/writer.ts:80 | The result has no whitespace at either end and is no longer than the input. |
| JsStrings.TrimEmptyIffBlank | src/pdf/writer.ts:80 | Trimming leaves nothing exactly when the input is all whitespace. |
| JsStrings.TrimPadded | src/pdf/writer.ts:80 | Trimming whitespace padding around a string without edge whitespace gives that string back. |
| JsStrings.TrimIsInfix | src/pdf/writer.ts:80 | The trimmed string is a contiguous middle part of the input with only whitespace on either side. |
| JsStrings.TrimIdempotent | src/pdf/writer.ts:80 | Trimming twice equals trimming once. |
| JsStrings.Join | src/pdf/text.ts:106 | No parts join to the empty string and one part joins to itself; otherwise the result is as long as the parts plus one separator between each neighbouring pair. |
| JsStrings.JoinFront | src/pdf/text.ts:106 | A join of two or more parts is the first part, the separator, and the join of the rest. |

## Left out

- Label inference for `get_field_context`: `src/tools/getFieldContext.ts` is a placeholder with no logic; the other placeholder tools (`openPdf.ts`, `listFields.ts`, `getPageContent.ts`, `previewPdf.ts`, `savePdf.ts`) likewise.
- Filesystem and paths: `access`, `stat`, `readFile`, `mkdir`, `writeFile` and `resolve` are not modelled; their results, including the system errors `stat` and `readFile` may throw, are arguments (`FileProbe`, `resolve`, `WriteOutcome`).
- PDF parsing, serialisation, font embedding, `page.drawText` and the widget/reference machinery of pdf-lib and pdfjs: represented by plain datatypes and by argument values (the font an embedding returns, the parse outcome, the error a draw throws, if any). Which texts a standard font cannot encode is therefore not modelled, only that the draw may throw.
- Error message wording of `src/pdf/errors.ts` (including the two-decimal size in `PdfTooLargeError`): errors are constructors, and their text is an argument `PdfError -> string` where a tool needs it.
- Error codes of the PDF error classes; the classes for page, bounds and save errors are not part of this model's source files, so they are constructors with the arguments their call sites pass.
- Numbers: coordinates, sizes and widths are reals, page numbers integers; IEEE floating point, NaN, and non-integer page numbers are not modelled.
- Concurrency and lifetime: `async`/`await`, `doc.destroy()`, and the garbage collection of the font cache's weak map.
- Object aliasing: the session store returns and marks the same JavaScript object a caller may hold; the model has values only.
- Transport and registration: `src/server.ts`, `src/index.ts`, `src/tools/index.ts`, `src/tools/drawText.ts`, `src/tools/getTextWithPositions.ts`, the elicitation transport and its schema parsing.
- The description branch of the fill tool (`src/tools/fillField.ts:56-58`): field records carry no description, so it is never taken.
- Limits pdf-lib enforces inside `setText`/`select` (maximum length, comb fields): the code validates options itself before selecting.
- Process spawning in `src/utils/platform.ts`, and `updateSessionPath`, which only the tests mention.
- Fields.GetFieldsByPage: the contract states membership in both directions but neither that the records keep the catalogue's order nor their multiplicity (it would allow a record to appear twice), though the definition keeps both.
- Writer.SavePdf: directory creation, serialisation and writing are one outcome argument, so which of them failed is not distinguished.

=== FILE: errors.dfy ===
/** The PDF error family (`PdfError` and its subclasses). Each subclass is a
    constructor carrying the values it is built from; message wording is not
    modelled and is supplied where needed as a function of the error. */
module PdfErrors {

  /** The coordinate a `PdfOutOfBoundsError` names. */
  datatype Axis = XAxis | YAxis

  datatype PdfError =
    | FileNotFound(path: string)
    | NotAPdf(path: string)
    | InvalidPdf(path: string, reason: string)
    | ProtectedPdf(path: string)
    | FileTooLarge(path: string, sizeBytes: nat)
    | FieldNotFound(fieldName: string)
    | InvalidPage(page: int, totalPages: nat)
    | ReadOnlyField(fieldName: string)
    | InvalidFieldValue(fieldName: string, value: string, options: seq<string>)
    | OutOfBounds(axis: Axis, coordinate: real, max: real)
    | SaveFailed(path: string, reason: string)
}

/** Tool-level error handling: `SessionError` and `formatToolError`. */
module ToolErrors {
  import opened Wrappers
  import opened PdfErrors

  datatype McpdfErrorCode = NoSession | SessionExpired | UnknownError

  /** Whatever a tool handler can catch: a PDF error, a session error, any
      other `Error`, or a thrown value that is not an `Error` at all (given
      by its `String(value)` rendering). */
  datatype Thrown =
    | PdfFailure(error: PdfError)
    | SessionFailure(message: string, code: McpdfErrorCode)
    | PlainError(message: string)
    | NonError(shown: string)

  /** `new SessionError(message, code?)`: the code defaults to NoSession. */
  function NewSessionError(message: string, code: Option<McpdfErrorCode>): (e: Thrown)
    ensures e.SessionFailure? && e.message == message
    ensures code.None? ==> e.code == NoSession
    ensures code.Some? ==> e.code == code.value
  {
    SessionFailure(message, code.GetOr(NoSession))
  }

  const UnknownErrorPrefix: string := "Unknown error occurred: "

  /** `formatToolError`: an `Error` of any kind formats to its own message
      (`pdfMessage` gives the message of a PDF error); anything else is
      rendered after a fixed prefix, from which it can be read back. */
  function FormatToolError(e: Thrown, pdfMessage: PdfError -> string): (r: string)
    ensures e.PdfFailure? ==> r == pdfMessage(e.error)
    ensures e.SessionFailure? || e.PlainError? ==> r == e.message
    ensures e.NonError? ==>
      && |UnknownErrorPrefix| <= |r|
      && r[..|UnknownErrorPrefix|] == UnknownErrorPrefix
      && r[|UnknownErrorPrefix|..] == e.shown
  {
    match e
    case PdfFailure(err) => pdfMessage(err)
    case SessionFailure(message, _) => message
    case PlainError(message) => message
    case NonError(shown) => UnknownErrorPrefix + shown
  }
}

=== FILE: fields.dfy ===
/** The form-field catalogue: a document's pages and fields (the pdf-lib
    objects, reduced to what the catalogue reads from them) and the metadata
    records derived from them. */
module Fields {
  import opened Wrappers
  import opened Seqs
  import opened PdfErrors

  /** A page: its object-reference tag (such as "5 0 R") and its size in points. */
  datatype Page = Page(ref: string, width: real, height: real)

  /** A widget annotation of a field; `pageRef` is the tag of the page it names, if any. */
  datatype Widget = Widget(pageRef: Option<string>)

  /** The pdf-lib field classes. OtherField stands for every class the
      catalogue does not recognise (push buttons, list boxes, signatures). */
  datatype FieldKind =
    | TextField(multiline: bool, text: Option<string>)
    | CheckBoxField(checked: bool)
    | RadioGroupField(options: seq<string>, selection: Option<string>)
    | DropdownField(options: seq<string>, selected: seq<string>)
    | OtherField

  datatype FormField = FormField(
    name: string,
    kind: FieldKind,
    readOnly: bool,
    required: bool,
    widgets: seq<Widget>)

  /** A loaded document; `id` stands for its object identity. */
  datatype Document = Document(id: nat, pages: seq<Page>, fields: seq<FormField>)

  datatype FieldType = Text | Multiline | Checkbox | Radio | Dropdown

  /** A field's current value: a string, a boolean, or null when empty. */
  datatype FieldValue = NullValue | StringValue(str: string) | BoolValue(flag: bool)

  /** The metadata record (`PdfField`) reported for a field. */
  datatype PdfField = PdfField(
    name: string,
    fieldType: FieldType,
    page: int,
    required: bool,
    readOnly: bool,
    currentValue: FieldValue,
    options: Option<seq<string>>)

  /** The page reference of the field's first widget, if it has one. */
  function PageRefOf(field: FormField): Option<string> {
    if |field.widgets| == 0 then None else field.widgets[0].pageRef
  }

  predicate HasPageRef(pages: seq<Page>, tag: string) {
    exists i :: 0 <= i < |pages| && pages[i].ref == tag
  }

  /** The 1-based page a field appears on: the first page whose tag equals
      the first widget's page reference, and page 1 whenever that cannot be
      determined. */
  function GetFieldPage(doc: Document, field: FormField): (page: int)
    ensures 1 <= page
    ensures page == 1 || page <= |doc.pages|
    ensures PageRefOf(field).None? ==> page == 1
    ensures PageRefOf(field).Some? && !HasPageRef(doc.pages, PageRefOf(field).value) ==> page == 1
    ensures PageRefOf(field).Some? && HasPageRef(doc.pages, PageRefOf(field).value) ==>
      && page <= |doc.pages|
      && doc.pages[page - 1].ref == PageRefOf(field).value
      && forall j :: 0 <= j < page - 1 ==> doc.pages[j].ref != PageRefOf(field).value
  {
    match PageRefOf(field)
    case None => 1
    case Some(tag) =>
      match FirstIndex(doc.pages, (p: Page) => p.ref == tag)
      case None => 1
      case Some(i) => i + 1
  }

  /** A field's page depends only on the page list and its widgets. */
  lemma SamePage(d1: Document, d2: Document, f1: FormField, f2: FormField)
    requires d1.pages == d2.pages && f1.widgets == f2.widgets
    ensures GetFieldPage(d1, f1) == GetFieldPage(d2, f2)
  {
  }

  /** The reported type: Multiline exactly for multi-line text fields, the
      matching type for the three choice classes, and Text for everything else. */
  function DetectFieldType(kind: FieldKind): (t: FieldType)
    ensures t == Multiline <==> kind.TextField? && kind.multiline
    ensures t == Checkbox <==> kind.CheckBoxField?
    ensures t == Radio <==> kind.RadioGroupField?
    ensures t == Dropdown <==> kind.DropdownField?
    ensures t == Text <==> (kind.TextField? && !kind.multiline) || kind.OtherField?
  {
    match kind
    case TextField(multiline, _) => if multiline then Multiline else Text
    case CheckBoxField(_) => Checkbox
    case RadioGroupField(_, _) => Radio
    case DropdownField(_, _) => Dropdown
    case OtherField => Text
  }

  /** The current value. A checkbox always has a boolean; every other kind
      yields a string or null, null meaning nothing is entered or selected. */
  function ExtractFieldValue(kind: FieldKind): (v: FieldValue)
    ensures v.BoolValue? <==> kind.CheckBoxField?
    ensures kind.CheckBoxField? ==> v.flag == kind.checked
    ensures v.NullValue? <==>
      || (kind.TextField? && kind.text.None?)
      || (kind.RadioGroupField? && kind.selection.None?)
      || (kind.DropdownField? && |kind.selected| == 0)
      || kind.OtherField?
    ensures v.StringValue? && kind.TextField? ==> kind.text == Some(v.str)
    ensures v.StringValue? && kind.RadioGroupField? ==> kind.selection == Some(v.str)
    ensures v.StringValue? && kind.DropdownField? ==> v.str == kind.selected[0]
  {
    match kind
    case TextField(_, text) => if text.Some? then StringValue(text.value) else NullValue
    case CheckBoxField(checked) => BoolValue(checked)
    case RadioGroupField(_, selection) =>
      if selection.Some? then StringValue(selection.value) else NullValue
    case DropdownField(_, selected) => if |selected| > 0 then StringValue(selected[0]) else NullValue
    case OtherField => NullValue
  }

  /** The declared options, present exactly for dropdowns and radio groups. */
  function ExtractFieldOptions(kind: FieldKind): (r: Option<seq<string>>)
    ensures r.Some? <==> kind.DropdownField? || kind.RadioGroupField?
    ensures r.Some? ==> r.value == kind.options
  {
    match kind
    case DropdownField(options, _) => Some(options)
    case RadioGroupField(options, _) => Some(options)
    case _ => None
  }

  function ConvertField(doc: Document, field: FormField): (m: PdfField)
    ensures m.name == field.name && m.required == field.required && m.readOnly == field.readOnly
    ensures m.page >= 1
    ensures m.fieldType == DetectFieldType(field.kind)
    ensures m.currentValue == ExtractFieldValue(field.kind)
    ensures m.options == ExtractFieldOptions(field.kind)
    ensures m.page == GetFieldPage(doc, field)
  {
    PdfField(
      field.name,
      DetectFieldType(field.kind),
      GetFieldPage(doc, field),
      field.required,
      field.readOnly,
      ExtractFieldValue(field.kind),
      ExtractFieldOptions(field.kind))
  }

  /** A record carries options exactly when its reported type is Radio or Dropdown. */
  lemma OptionsIffChoiceType(doc: Document, field: FormField)
    ensures var m := ConvertField(doc, field);
            m.options.Some? <==> (m.fieldType == Radio || m.fieldType == Dropdown)
  {
  }

  /** One metadata record per form field, in form order. */
  function ExtractFields(doc: Document): (r: seq<PdfField>)
    ensures |r| == |doc.fields|
    ensures forall i :: 0 <= i < |r| ==> r[i] == ConvertField(doc, doc.fields[i])
  {
    Map(doc.fields, (f: FormField) => ConvertField(doc, f))
  }

  predicate HasField(fields: seq<FormField>, name: string) {
    exists i :: 0 <= i < |fields| && fields[i].name == name
  }

  /** `i` is the position of the first field called `name`. */
  predicate IsFirstNamed(fields: seq<FormField>, name: string, i: int) {
    && 0 <= i < |fields|
    && fields[i].name == name
    && forall j :: 0 <= j < i ==> fields[j].name != name
  }

  lemma FirstNamedUnique(fields: seq<FormField>, name: string, i: int, k: int)
    requires IsFirstNamed(fields, name, i) && IsFirstNamed(fields, name, k)
    ensures i == k
  {
  }

  /** `fields.find(f => f.getName() === name)`, as a position. */
  function FindField(fields: seq<FormField>, name: string): (r: Option<nat>)
    ensures r.None? <==> !HasField(fields, name)
    ensures r.Some? ==> IsFirstNamed(fields, name, r.value)
  {
    FirstIndex(fields, (f: FormField) => f.name == name)
  }

  /** The record of the first field with the given name, or FieldNotFound. */
  function GetFieldByName(doc: Document, name: string): (r: Result<PdfField, PdfError>)
    ensures r.Failure? <==> !HasField(doc.fields, name)
    ensures r.Failure? ==> r.error == FieldNotFound(name)
    ensures forall i :: IsFirstNamed(doc.fields, name, i) ==>
      r == Success(ExtractFields(doc)[i])
  {
    match FindField(doc.fields, name)
    case None => Failure(FieldNotFound(name))
    case Some(i) => Success(ConvertField(doc, doc.fields[i]))
  }

  function Max(a: int, b: int): int {
    if a < b then b else a
  }

  /** The records of the fields on one page. */
  function GetFieldsByPage(doc: Document, page: int): (r: seq<PdfField>)
    ensures forall k :: 0 <= k < |r| ==> r[k].page == page && r[k] in ExtractFields(doc)
    ensures forall i :: 0 <= i < |doc.fields| && GetFieldPage(doc, doc.fields[i]) == page ==>
      ConvertField(doc, doc.fields[i]) in r
    ensures page < 1 || page > Max(1, |doc.pages|) ==> r == []
  {
    var all := ExtractFields(doc);
    var r := Filter(all, (m: PdfField) => m.page == page);
    assert forall i :: 0 <= i < |doc.fields| ==> all[i] == ConvertField(doc, doc.fields[i]);
    assert forall m :: m in all ==> 1 <= m.page <= Max(1, |doc.pages|);
    assert |r| > 0 ==> r[0].page == page && r[0] in all;
    r
  }
}

=== FILE: filltool.dfy ===
/** The `fill_field` tool handler: it looks the field up, refuses read-only
    fields, asks the client for a value with a schema chosen by the field's
    type, and fills the field only when the client accepts with a usable
    value. The elicitation round trip is not modelled: the client's answer
    is an argument, consulted only when a request was actually sent. */
module FillTool {
  import opened Wrappers
  import opened JsStrings
  import opened PdfErrors
  import opened ToolErrors
  import opened Fields
  import opened Writer
  import opened Session

  /** The JSON schema requested for the value. */
  datatype ValueSchema = BooleanSchema | StringSchema | EnumSchema(values: seq<string>)

  /** Checkbox asks for a boolean, radio groups and dropdowns for one of their
      options, and every other type for a string. */
  function ValueSchemaFor(field: PdfField): (schema: ValueSchema)
    ensures schema.BooleanSchema? <==> field.fieldType == Checkbox
    ensures schema.EnumSchema? <==> field.fieldType == Radio || field.fieldType == Dropdown
    ensures schema.StringSchema? <==> field.fieldType in {Text, Multiline}
    ensures schema.EnumSchema? ==> schema.values == field.options.GetOr([])
  {
    match field.fieldType
    case Checkbox => BooleanSchema
    case Radio => EnumSchema(field.options.GetOr([]))
    case Dropdown => EnumSchema(field.options.GetOr([]))
    case _ => StringSchema
  }

  /** A form-mode elicitation request for an object with the listed properties. */
  datatype ElicitRequest = ElicitRequest(
    message: string,
    properties: map<string, ValueSchema>,
    required: seq<string>)

  /** The request asks for exactly one property, named after the field, and
      requires it. */
  function BuildRequest(fieldName: string, schema: ValueSchema): (req: ElicitRequest)
    ensures req.properties.Keys == {fieldName} && req.properties[fieldName] == schema
    ensures req.required == [fieldName]
  {
    ElicitRequest(
      "Please provide a value for field \"" + fieldName + "\"",
      map[fieldName := schema],
      [fieldName])
  }

  datatype ReplyAction = Accept | Decline | Cancel

  /** The primitive values an elicitation reply may carry. */
  datatype JsonValue = JsonString(s: string) | JsonBool(b: bool) | JsonNumber(n: real) | JsonStringList(items: seq<string>)

  datatype ReplyContent = ObjectContent(props: map<string, JsonValue>) | ArrayContent(elements: seq<JsonValue>)

  datatype ElicitReply = ElicitReply(action: ReplyAction, content: Option<ReplyContent>)

  /** The value a reply supplies for the field: present only when the reply
      accepts, its content is an object (not an array) holding the field's
      name, and the value there is a string or a boolean. */
  function AcceptedValue(reply: ElicitReply, fieldName: string): (v: Option<InputValue>)
    ensures v.Some? <==>
      && reply.action == Accept
      && reply.content.Some? && reply.content.value.ObjectContent?
      && fieldName in reply.content.value.props
      && (reply.content.value.props[fieldName].JsonString? || reply.content.value.props[fieldName].JsonBool?)
    ensures v.Some? && v.value.TextInput? ==> reply.content.value.props[fieldName] == JsonString(v.value.text)
    ensures v.Some? && v.value.FlagInput? ==> reply.content.value.props[fieldName] == JsonBool(v.value.flag)
  {
    if reply.action != Accept || reply.content.None? then None
    else
      match reply.content.value
      case ArrayContent(_) => None
      case ObjectContent(props) =>
        if fieldName !in props then None
        else
          match props[fieldName]
          case JsonString(s) => Some(TextInput(s))
          case JsonBool(b) => Some(FlagInput(b))
          case _ => None
  }

  datatype ToolResponse = ToolResponse(text: string, isError: bool)

  const DeclinedText: string := "Field filling cancelled or declined by user."

  /** A field value in a template literal: `null` for an empty value. */
  function ValueText(v: FieldValue): string {
    match v
    case NullValue => "null"
    case StringValue(s) => s
    case BoolValue(b) => BoolText(b)
  }

  const SuccessLead: string := "Successfully filled field \""

  /** The success message: names the field, then its new and previous values. */
  function SuccessText(fieldName: string, filled: FilledField): (text: string)
    ensures OccursAt(text, SuccessLead, 0)
    ensures OccursAt(text, fieldName, |SuccessLead|)
    ensures Contains(text, ValueText(filled.value))
    ensures Contains(text, ValueText(filled.previousValue))
    ensures text[|text| - 1] == ')'
  {
    var head := SuccessLead + fieldName + "\" with value: ";
    var tail := " (Previous: " + ValueText(filled.previousValue) + ")";
    var text := head + ValueText(filled.value) + tail;
    assert OccursAt(text, ValueText(filled.value), |head|);
    assert OccursAt(text, ValueText(filled.previousValue), |head| + |ValueText(filled.value)| + |" (Previous: "|);
    text
  }

  /** Every caught error becomes an error response carrying its formatted text. */
  function ErrorResponse(e: Thrown, pdfMessage: PdfError -> string): (resp: ToolResponse)
    ensures resp.isError && resp.text == FormatToolError(e, pdfMessage)
  {
    ToolResponse(FormatToolError(e, pdfMessage), true)
  }

  /** Everything before the request is sent: the active session, the field's
      record, the read-only check and the request itself. */
  function PrepareFill(store: Store, fieldName: string): (r: Result<(PdfSession, ElicitRequest), Thrown>)
    ensures !IsSessionActive(store) ==> r == Failure(PlainError(NoSessionMessage))
    ensures IsSessionActive(store) && !HasField(store.value.document.fields, fieldName) ==>
      r == Failure(PdfFailure(FieldNotFound(fieldName)))
    ensures IsSessionActive(store) && GetFieldByName(store.value.document, fieldName).Success? ==>
      var field := GetFieldByName(store.value.document, fieldName).value;
      && (field.readOnly ==> r == Failure(PdfFailure(ReadOnlyField(fieldName))))
      && (!field.readOnly ==> r == Success((store.value, BuildRequest(fieldName, ValueSchemaFor(field)))))
  {
    match GetActiveSession(store)
    case Failure(e) => Failure(e)
    case Success(session) =>
      match GetFieldByName(session.document, fieldName)
      case Failure(e) => Failure(PdfFailure(e))
      case Success(field) =>
        if field.readOnly then Failure(PdfFailure(ReadOnlyField(fieldName)))
        else Success((session, BuildRequest(fieldName, ValueSchemaFor(field))))
  }

  /** The store after the call, the response, and the request sent, if any. */
  datatype FillToolRun = FillToolRun(store: Store, response: ToolResponse, request: Option<ElicitRequest>)

  /** What follows a sent request: the client's usable value (if any) is
      filled into the session's document, which is then stored and marked
      modified; no usable value means the user declined. */
  function AnswerRun(store: Store, session: PdfSession, request: ElicitRequest, fieldName: string,
                     answer: Option<InputValue>, pdfMessage: PdfError -> string): (r: FillToolRun)
    ensures r.request == Some(request)
    ensures answer.None? ==> r.store == store && r.response == ToolResponse(DeclinedText, false)
    ensures answer.Some? ==>
      var fill := FillField(session.document, fieldName, answer.value);
      && (fill.Failure? ==> r.store == store && r.response == ErrorResponse(PdfFailure(fill.error), pdfMessage))
      && (fill.Success? ==>
            && r.store == Some(session.(document := fill.value.document, isModified := true))
            && r.response == ToolResponse(SuccessText(fieldName, fill.value.filled), false))
  {
    match answer
    case None => FillToolRun(store, ToolResponse(DeclinedText, false), Some(request))
    case Some(value) =>
      match FillField(session.document, fieldName, value)
      case Failure(e) => FillToolRun(store, ErrorResponse(PdfFailure(e), pdfMessage), Some(request))
      case Success(out) =>
        var filled := SetActiveSession(store, session.(document := out.document));
        FillToolRun(
          MarkSessionModified(filled),
          ToolResponse(SuccessText(fieldName, out.filled), false),
          Some(request))
  }

  /** The handler. `reply` is what the client answers, or what sending the
      request threw; `pdfMessage` gives the text of a PDF error. */
  function HandleFillField(store: Store, fieldName: string, reply: Result<ElicitReply, Thrown>,
                           pdfMessage: PdfError -> string): (r: FillToolRun)
    ensures var prep := PrepareFill(store, fieldName);
      && r.request == (if prep.Success? then Some(prep.value.1) else None)
      && (prep.Failure? ==> r.store == store && r.response == ErrorResponse(prep.error, pdfMessage))
    ensures r.response.isError ==> r.store == store
    ensures r.store != store ==>
      && r.request.Some? && reply.Success? && AcceptedValue(reply.value, fieldName).Some?
      && !r.response.isError
      && IsSessionActive(r.store) && r.store.value.isModified
    ensures reply.Failure? ==>
      r.store == store && (r.request.Some? ==> r.response == ErrorResponse(reply.error, pdfMessage))
  {
    match PrepareFill(store, fieldName)
    case Failure(e) => FillToolRun(store, ErrorResponse(e, pdfMessage), None)
    case Success((session, request)) =>
      match reply
      case Failure(e) => FillToolRun(store, ErrorResponse(e, pdfMessage), Some(request))
      case Success(answer) => AnswerRun(store, session, request, fieldName, AcceptedValue(answer, fieldName), pdfMessage)
  }

  /** Once the request is sent and answered, the answer decides: no usable
      value is a decline, a value the fill rejects an error response, and a
      successful fill is stored with the session marked modified. */
  lemma HandlerAnswers(store: Store, fieldName: string, reply: Result<ElicitReply, Thrown>, pdfMessage: PdfError -> string)
    ensures PrepareFill(store, fieldName).Success? && reply.Success? ==>
      var run := HandleFillField(store, fieldName, reply, pdfMessage);
      var session := store.value;
      var answer := AcceptedValue(reply.value, fieldName);
      && (answer.None? ==> run.store == store && run.response == ToolResponse(DeclinedText, false))
      && (answer.Some? ==>
            var fill := FillField(session.document, fieldName, answer.value);
            && (fill.Failure? ==>
                  run.store == store && run.response == ErrorResponse(PdfFailure(fill.error), pdfMessage))
            && (fill.Success? ==>
                  && run.store == Some(session.(document := fill.value.document, isModified := true))
                  && run.response == ToolResponse(SuccessText(fieldName, fill.value.filled), false)))
  {
  }

  /** A read-only field is refused before any request is sent, and the
      store is left as it was. */
  lemma ReadOnlyNeverElicits(store: Store, fieldName: string, reply: Result<ElicitReply, Thrown>, pdfMessage: PdfError -> string, i: nat)
    requires store.Some? && IsFirstNamed(store.value.document.fields, fieldName, i)
    requires store.value.document.fields[i].readOnly
    ensures HandleFillField(store, fieldName, reply, pdfMessage) ==
      FillToolRun(store, ErrorResponse(PdfFailure(ReadOnlyField(fieldName)), pdfMessage), None)
  {
  }

  /** When the handler changes the store, it stored the document of a
      successful fill of the accepted value and reported that fill; looking
      the field up again shows the reported value as read back (for a field
      of a recognised kind), and nothing but that value differs in its record. */
  lemma AcceptedFillIsVisible(store: Store, fieldName: string, reply: Result<ElicitReply, Thrown>, pdfMessage: PdfError -> string)
    ensures var run := HandleFillField(store, fieldName, reply, pdfMessage);
            run.store != store ==>
            var before := store.value.document;
            var fill := FillField(before, fieldName, AcceptedValue(reply.value, fieldName).value);
            var after := run.store.value.document;
            && fill.Success? && after == fill.value.document
            && run.response == ToolResponse(SuccessText(fieldName, fill.value.filled), false)
            && GetFieldByName(before, fieldName).Success?
            && GetFieldByName(after, fieldName).Success?
            && GetFieldByName(after, fieldName).value ==
                 GetFieldByName(before, fieldName).value.(currentValue := GetFieldByName(after, fieldName).value.currentValue)
            && forall i :: IsFirstNamed(before.fields, fieldName, i) && !before.fields[i].kind.OtherField? ==>
                 GetFieldByName(after, fieldName).value.currentValue == ReadBack(before.fields[i].kind, fill.value.filled.value)
  {
    var run := HandleFillField(store, fieldName, reply, pdfMessage);
    if run.store != store {
      var value := AcceptedValue(reply.value, fieldName).value;
      HandlerAnswers(store, fieldName, reply, pdfMessage);
      var fill := FillField(store.value.document, fieldName, value);
      assert fill.Success?;
      var i := FindField(store.value.document.fields, fieldName).value;
      FillThenLookup(store.value.document, fieldName, value, i);
    }
  }
}

=== FILE: jsstrings.dfy ===
/** The few JavaScript string operations the core relies on: `trim`,
    `toLowerCase`, `endsWith`, `includes`, `join` and `String(boolean)`. */
module JsStrings {

  /** ECMAScript WhiteSpace and LineTerminator code points, which `trim` removes. */
  const WhitespaceChars: set<char> := {
    ' ', '\t', '\n', '\r', '\U{000B}', '\U{000C}', '\U{00A0}', '\U{1680}',
    '\U{2000}', '\U{2001}', '\U{2002}', '\U{2003}', '\U{2004}', '\U{2005}',
    '\U{2006}', '\U{2007}', '\U{2008}', '\U{2009}', '\U{200A}',
    '\U{2028}', '\U{2029}', '\U{202F}', '\U{205F}', '\U{3000}', '\U{FEFF}'
  }

  predicate IsWhitespace(c: char) {
    c in WhitespaceChars
  }

  predicate AllWhitespace(s: string) {
    forall i :: 0 <= i < |s| ==> IsWhitespace(s[i])
  }

  /** Neither end of `s` is whitespace (vacuously true of the empty string). */
  predicate Trimmed(s: string) {
    |s| == 0 || (!IsWhitespace(s[0]) && !IsWhitespace(s[|s| - 1]))
  }

  /** The first position at or after `i` that is not whitespace (or `|s|`):
      where `trimStart` cuts. */
  function SkipBlanks(s: string, i: nat): (k: nat)
    requires i <= |s|
    ensures i <= k <= |s|
    ensures forall j :: i <= j < k ==> IsWhitespace(s[j])
    ensures k < |s| ==> !IsWhitespace(s[k])
    decreases |s| - i
  {
    if i < |s| && IsWhitespace(s[i]) then SkipBlanks(s, i + 1) else i
  }

  /** The end of `s[lo..j]` once its trailing whitespace is dropped: where
      `trimEnd` cuts. */
  function SkipBlanksBack(s: string, lo: nat, j: nat): (k: nat)
    requires lo <= j <= |s|
    ensures lo <= k <= j
    ensures forall m :: k <= m < j ==> IsWhitespace(s[m])
    ensures k > lo ==> !IsWhitespace(s[k - 1])
  {
    if j > lo && IsWhitespace(s[j - 1]) then SkipBlanksBack(s, lo, j - 1) else j
  }

  /** Where the trimmed text of `s` begins. */
  function TrimStartIndex(s: string): nat {
    SkipBlanks(s, 0)
  }

  /** `String.prototype.trim`. */
  function Trim(s: string): (r: string)
    ensures Trimmed(r)
    ensures |r| <= |s|
  {
    s[TrimStartIndex(s)..SkipBlanksBack(s, TrimStartIndex(s), |s|)]
  }

  /** The whitespace run starting at `i` ends exactly at `k`. */
  lemma {:induction false} SkipBlanksAt(s: string, i: nat, k: nat)
    requires i <= k <= |s|
    requires forall j :: i <= j < k ==> IsWhitespace(s[j])
    requires k < |s| ==> !IsWhitespace(s[k])
    ensures SkipBlanks(s, i) == k
    decreases k - i
  {
    if i < k {
      SkipBlanksAt(s, i + 1, k);
    }
  }

  /** The whitespace run ending at `j` starts exactly at `k`. */
  lemma {:induction false} SkipBlanksBackAt(s: string, lo: nat, j: nat, k: nat)
    requires lo <= k <= j <= |s|
    requires forall m :: k <= m < j ==> IsWhitespace(s[m])
    requires k > lo ==> !IsWhitespace(s[k - 1])
    ensures SkipBlanksBack(s, lo, j) == k
    decreases j - k
  {
    if k < j {
      SkipBlanksBackAt(s, lo, j - 1, k);
    }
  }

  /** Trimming leaves nothing exactly when the string is all whitespace. */
  lemma TrimEmptyIffBlank(s: string)
    ensures |Trim(s)| == 0 <==> AllWhitespace(s)
  {
  }

  /** Trimming removes exactly the whitespace padding around a trimmed core:
      together with `Trim`'s contract this pins `Trim` down completely. */
  lemma TrimPadded(p: string, core: string, q: string)
    requires AllWhitespace(p) && AllWhitespace(q) && Trimmed(core)
    ensures Trim(p + core + q) == core
  {
    var x := p + core + q;
    var b := |p| + |core|;
    if |core| == 0 {
      SkipBlanksAt(x, 0, |x|);
      assert x[|x|..|x|] == core;
    } else {
      assert x[|p|] == core[0];
      SkipBlanksAt(x, 0, |p|);
      assert x[b - 1] == core[|core| - 1];
      SkipBlanksBackAt(x, |p|, |x|, b);
      assert x[|p|..b] == core;
    }
  }

  /** `r` sits at position `k` of `s` with only whitespace on either side. */
  predicate PaddedAt(s: string, k: int, r: string) {
    && 0 <= k && k + |r| <= |s|
    && s[k..k + |r|] == r
    && (forall j :: 0 <= j < k ==> IsWhitespace(s[j]))
    && (forall j :: k + |r| <= j < |s| ==> IsWhitespace(s[j]))
  }

  /** The trimmed string is the middle of `s`, surrounded by whitespace only. */
  lemma TrimIsInfix(s: string)
    ensures PaddedAt(s, TrimStartIndex(s), Trim(s))
  {
  }

  lemma TrimOfTrimmed(s: string)
    requires Trimmed(s)
    ensures Trim(s) == s
  {
    TrimPadded([], s, []);
    assert [] + s + [] == s;
  }

  lemma TrimIdempotent(s: string)
    ensures Trim(Trim(s)) == Trim(s)
  {
    TrimOfTrimmed(Trim(s));
  }

  function LowerChar(c: char): char {
    if 'A' <= c <= 'Z' then (c as int + 32) as char else c
  }

  /** `toLowerCase`, restricted to the ASCII letters. */
  function LowerAscii(s: string): (r: string)
    ensures |r| == |s|
    ensures forall i :: 0 <= i < |s| ==> r[i] == LowerChar(s[i])
  {
    seq(|s|, i requires 0 <= i < |s| => LowerChar(s[i]))
  }

  predicate EndsWith(s: string, suffix: string) {
    |suffix| <= |s| && s[|s| - |suffix|..] == suffix
  }

  predicate OccursAt(s: string, needle: string, i: int) {
    0 <= i <= |s| - |needle| && s[i..i + |needle|] == needle
  }

  /** `String.prototype.includes`. */
  predicate Contains(s: string, needle: string) {
    exists i :: 0 <= i <= |s| && OccursAt(s, needle, i)
  }

  /** `path.toLowerCase().endsWith('.pdf')`, the extension test of both
      loaders: the last four characters spell ".pdf" in any letter case. */
  function HasPdfExtension(path: string): (b: bool)
    ensures b <==> |path| >= 4 && LowerAscii(path[|path| - 4..]) == ".pdf"
  {
    var lowered := LowerAscii(path);
    assert |path| >= 4 ==> LowerAscii(path[|path| - 4..]) == lowered[|path| - 4..];
    EndsWith(lowered, ".pdf")
  }

  /** `String(b)` for a boolean. */
  function BoolText(b: bool): string {
    if b then "true" else "false"
  }

  function TotalLength(parts: seq<string>): nat {
    if |parts| == 0 then 0 else TotalLength(parts[..|parts| - 1]) + |parts[|parts| - 1]|
  }

  /** `Array.prototype.join(sep)`: no parts give the empty string, and
      otherwise exactly one separator stands between neighbouring parts, so
      the result is as long as the parts plus the separators. */
  function Join(parts: seq<string>, sep: string): (r: string)
    ensures |parts| == 0 ==> r == ""
    ensures |parts| == 1 ==> r == parts[0]
    ensures |parts| > 0 ==> |r| == TotalLength(parts) + (|parts| - 1) * |sep|
  {
    if |parts| == 0 then ""
    else if |parts| == 1 then parts[0]
    else Join(parts[..|parts| - 1], sep) + sep + parts[|parts| - 1]
  }

  /** The join also splits at the front: the first part, a separator, and
      the join of the rest. */
  lemma {:induction false} JoinFront(parts: seq<string>, sep: string)
    requires |parts| > 1
    ensures Join(parts, sep) == parts[0] + sep + Join(parts[1..], sep)
  {
    var n := |parts|;
    var init, rest := parts[..n - 1], parts[1..];
    assert Join(parts, sep) == Join(init, sep) + sep + parts[n - 1];
    if n == 2 {
      assert Join(init, sep) == parts[0];
      assert Join(rest, sep) == parts[1];
    } else {
      JoinFront(init, sep);
      assert Join(rest, sep) == Join(rest[..n - 2], sep) + sep + rest[n - 2];
      assert rest[..n - 2] == init[1..];
    }
  }
}

=== FILE: loader.dfy ===
/** Opening a PDF file: the checks made before parsing, in their fixed
    order, and the metadata reported for a parsed document. The filesystem
    and the parser are not modelled; what they report is a `FileProbe`. */
module Loader {
  import opened Wrappers
  import opened JsStrings
  import opened PdfErrors
  import opened ToolErrors
  import opened Fields

  /** The largest accepted file: 50 MiB. */
  const MaxPdfSizeBytes: nat := 50 * 1024 * 1024

  /** What a parser throws: an `Error` with a message, or some other value
      (given by its `String(value)` rendering). */
  datatype ParseFailure = ErrorThrown(message: string) | ValueThrown(shown: string)

  datatype ParseOutcome<D> = Parsed(doc: D) | ParseFailed(failure: ParseFailure)

  /** What the environment reports about a path: its resolved absolute form,
      whether `access` succeeds, what `stat` gives (the size, or the message
      of the system error it throws), the message of the system error
      `readFile` throws if it does (a directory, an unreadable file), and
      what parsing the bytes gives. */
  datatype FileProbe<D> = FileProbe(
    path: string,
    found: bool,
    stat: Result<nat, string>,
    readError: Option<string>,
    parse: ParseOutcome<D>)

  /** The file checks that precede parsing all pass, and the bytes were read. */
  predicate PassesFileChecks<D>(probe: FileProbe<D>) {
    && probe.found && HasPdfExtension(probe.path)
    && probe.stat.Success? && probe.stat.value <= MaxPdfSizeBytes
    && probe.readError.None?
  }

  /** A parse failure is reported as a protected PDF when it is an `Error`
      whose message mentions `keyword` in any letter case, and as an invalid
      PDF, with the message or rendering as the reason, otherwise. */
  function ClassifyParseFailure(path: string, failure: ParseFailure, keyword: string): (e: PdfError)
    ensures e.ProtectedPdf? <==> failure.ErrorThrown? && Contains(LowerAscii(failure.message), keyword)
    ensures e.ProtectedPdf? ==> e == ProtectedPdf(path)
    ensures !e.ProtectedPdf? ==> e.InvalidPdf? && e.path == path
    ensures e.InvalidPdf? && failure.ErrorThrown? ==> e.reason == failure.message
    ensures e.InvalidPdf? && failure.ValueThrown? ==> e.reason == failure.shown
  {
    match failure
    case ErrorThrown(message) =>
      if Contains(LowerAscii(message), keyword) then ProtectedPdf(path) else InvalidPdf(path, message)
    case ValueThrown(shown) => InvalidPdf(path, shown)
  }

  /** The shared opening sequence: exists, then ".pdf" suffix, then size,
      then reading, then parsing. The first step that fails decides the
      error; a system error of `stat` or `readFile` escapes as it is. */
  function OpenChecked<D>(probe: FileProbe<D>, keyword: string): (r: Result<D, Thrown>)
    ensures !probe.found ==> r == Failure(PdfFailure(FileNotFound(probe.path)))
    ensures probe.found && !HasPdfExtension(probe.path) ==> r == Failure(PdfFailure(NotAPdf(probe.path)))
    ensures probe.found && HasPdfExtension(probe.path) && probe.stat.Failure? ==>
      r == Failure(PlainError(probe.stat.error))
    ensures probe.found && HasPdfExtension(probe.path) && probe.stat.Success? && probe.stat.value > MaxPdfSizeBytes ==>
      r == Failure(PdfFailure(FileTooLarge(probe.path, probe.stat.value)))
    ensures probe.found && HasPdfExtension(probe.path) && probe.stat.Success? && probe.stat.value <= MaxPdfSizeBytes
            && probe.readError.Some? ==>
      r == Failure(PlainError(probe.readError.value))
    ensures PassesFileChecks(probe) && probe.parse.ParseFailed? ==>
      r == Failure(PdfFailure(ClassifyParseFailure(probe.path, probe.parse.failure, keyword)))
    ensures r.Success? <==> PassesFileChecks(probe) && probe.parse.Parsed?
    ensures r.Success? ==> r.value == probe.parse.doc
  {
    if !probe.found then Failure(PdfFailure(FileNotFound(probe.path)))
    else if !HasPdfExtension(probe.path) then Failure(PdfFailure(NotAPdf(probe.path)))
    else
      match probe.stat
      case Failure(message) => Failure(PlainError(message))
      case Success(size) =>
        if size > MaxPdfSizeBytes then Failure(PdfFailure(FileTooLarge(probe.path, size)))
        else if probe.readError.Some? then Failure(PlainError(probe.readError.value))
        else
          match probe.parse
          case Parsed(doc) => Success(doc)
          case ParseFailed(failure) => Failure(PdfFailure(ClassifyParseFailure(probe.path, failure, keyword)))
  }

  datatype LoadedPdf = LoadedPdf(
    document: Document,
    path: string,
    pageCount: nat,
    hasForm: bool,
    fieldCount: nat)

  /** `loadPdf`: the opening sequence, with "encrypted" marking a protected
      file, then the document's metadata. */
  function LoadPdf(probe: FileProbe<Document>): (r: Result<LoadedPdf, Thrown>)
    ensures r.Failure? <==> !(PassesFileChecks(probe) && probe.parse.Parsed?)
    ensures r.Failure? ==> r.error == OpenChecked(probe, "encrypted").error
    ensures r.Success? ==>
      && r.value.document == probe.parse.doc
      && r.value.path == probe.path
      && r.value.pageCount == |probe.parse.doc.pages|
      && r.value.fieldCount == |probe.parse.doc.fields|
      && (r.value.hasForm <==> r.value.fieldCount > 0)
  {
    match OpenChecked(probe, "encrypted")
    case Failure(e) => Failure(e)
    case Success(doc) =>
      var fieldCount := |doc.fields|;
      Success(LoadedPdf(doc, probe.path, |doc.pages|, fieldCount > 0, fieldCount))
  }

  /** A readable file of exactly the size limit passes the size check. */
  lemma SizeLimitInclusive<D>(probe: FileProbe<D>)
    requires probe.found && HasPdfExtension(probe.path)
    requires probe.stat == Success(52428800) && probe.readError.None?
    ensures PassesFileChecks(probe)
  {
  }
}

=== FILE: overlay.dfy ===
/** Drawing free text on a page: argument validation and defaults, and the
    per-document cache of embedded standard fonts. */
module Overlay {
  import opened Wrappers
  import opened PdfErrors
  import opened ToolErrors
  import opened Fields

  datatype FontName = Helvetica | TimesRoman | Courier

  /** An embedded font object; `serial` distinguishes separate embeddings. */
  datatype Font = Font(name: FontName, serial: nat)

  /** Fonts already embedded, per document identity. */
  type FontCache = map<nat, map<FontName, Font>>

  /** The font handed back, the cache afterwards, and whether the font had
      to be embedded. */
  datatype FontLookup = FontLookup(font: Font, cache: FontCache, embedded: bool)

  /** `getEmbeddedFont`: return the font cached for (`doc`, `name`), or embed
      it (`embedding` is the font the embedding produces) and cache it. */
  function GetEmbeddedFont(cache: FontCache, doc: nat, name: FontName, embedding: Font): (r: FontLookup)
    ensures doc in r.cache && name in r.cache[doc] && r.cache[doc][name] == r.font
    ensures doc in cache && name in cache[doc] ==>
      r.font == cache[doc][name] && !r.embedded && r.cache == cache
    ensures !(doc in cache && name in cache[doc]) ==> r.font == embedding && r.embedded
    ensures forall d :: d in cache && d != doc ==> d in r.cache && r.cache[d] == cache[d]
    ensures forall d :: d in r.cache ==> d in cache || d == doc
    ensures forall f :: f in r.cache[doc] ==> f == name || (doc in cache && f in cache[doc])
    ensures doc in cache ==>
      forall f :: f in cache[doc] ==> f in r.cache[doc] && r.cache[doc][f] == cache[doc][f]
  {
    var docFonts := if doc in cache then cache[doc] else map[];
    if name in docFonts then FontLookup(docFonts[name], cache, false)
    else FontLookup(embedding, cache[doc := docFonts[name := embedding]], true)
  }

  /** A second request for the same font of the same document is served
      from the cache, whatever font a new embedding would have produced. */
  lemma SecondLookupHitsCache(cache: FontCache, doc: nat, name: FontName, first: Font, second: Font)
    ensures var r1 := GetEmbeddedFont(cache, doc, name, first);
            var r2 := GetEmbeddedFont(r1.cache, doc, name, second);
            r2.font == r1.font && !r2.embedded && r2.cache == r1.cache
  {
  }

  datatype OverlayOptions = OverlayOptions(
    text: string,
    x: real,
    y: real,
    page: int,
    fontSize: Option<real>,
    fontName: Option<FontName>)

  datatype OverlayResult = OverlayResult(
    text: string,
    x: real,
    y: real,
    page: int,
    fontSize: real,
    fontName: FontName)

  const DefaultFontSize: real := 12.0
  const DefaultFontName: FontName := Helvetica

  /** Whether the coordinate lies in [0, limit], both ends included. */
  predicate InRange(v: real, limit: real) {
    0.0 <= v <= limit
  }

  /** The page exists and (x, y) lies within it, edges included. */
  predicate PlacementValid(doc: Document, opts: OverlayOptions) {
    && 1 <= opts.page <= |doc.pages|
    && InRange(opts.x, doc.pages[opts.page - 1].width)
    && InRange(opts.y, doc.pages[opts.page - 1].height)
  }

  /** What a draw leaves: the answer (or what was thrown) and the font cache
      afterwards, which a failed draw may already have extended. */
  datatype DrawOutcome = DrawOutcome(result: Result<OverlayResult, Thrown>, cache: FontCache)

  /** `drawTextOnPage`: the page number is checked first, then x against the
      page width, then y against its height; only then is the font fetched
      (and cached) and the text drawn. `drawError` is the message of the
      `Error` that `page.drawText` throws, if it does (a character the font
      cannot encode, say). The result echoes the request, defaults filled in. */
  function DrawTextOnPage(doc: Document, cache: FontCache, opts: OverlayOptions, embedding: Font,
                          drawError: Option<string>): (r: DrawOutcome)
    ensures (opts.page < 1 || opts.page > |doc.pages|) ==>
      r == DrawOutcome(Failure(PdfFailure(InvalidPage(opts.page, |doc.pages|))), cache)
    ensures 1 <= opts.page <= |doc.pages| && !InRange(opts.x, doc.pages[opts.page - 1].width) ==>
      r == DrawOutcome(Failure(PdfFailure(OutOfBounds(XAxis, opts.x, doc.pages[opts.page - 1].width))), cache)
    ensures 1 <= opts.page <= |doc.pages| && InRange(opts.x, doc.pages[opts.page - 1].width)
            && !InRange(opts.y, doc.pages[opts.page - 1].height) ==>
      r == DrawOutcome(Failure(PdfFailure(OutOfBounds(YAxis, opts.y, doc.pages[opts.page - 1].height))), cache)
    ensures PlacementValid(doc, opts) ==>
      r.cache == GetEmbeddedFont(cache, doc.id, opts.fontName.GetOr(DefaultFontName), embedding).cache
    ensures PlacementValid(doc, opts) && drawError.Some? ==> r.result == Failure(PlainError(drawError.value))
    ensures r.result.Success? <==> PlacementValid(doc, opts) && drawError.None?
    ensures r.result.Success? ==>
      var res := r.result.value;
      && res.text == opts.text && res.x == opts.x && res.y == opts.y && res.page == opts.page
      && res.fontSize == opts.fontSize.GetOr(DefaultFontSize)
      && res.fontName == opts.fontName.GetOr(DefaultFontName)
      && res.fontName in r.cache[doc.id]
  {
    var fontSize := opts.fontSize.GetOr(DefaultFontSize);
    var fontName := opts.fontName.GetOr(DefaultFontName);
    var pageCount := |doc.pages|;
    if opts.page < 1 || opts.page > pageCount then
      DrawOutcome(Failure(PdfFailure(InvalidPage(opts.page, pageCount))), cache)
    else
      var page := doc.pages[opts.page - 1];
      if opts.x < 0.0 || opts.x > page.width then
        DrawOutcome(Failure(PdfFailure(OutOfBounds(XAxis, opts.x, page.width))), cache)
      else if opts.y < 0.0 || opts.y > page.height then
        DrawOutcome(Failure(PdfFailure(OutOfBounds(YAxis, opts.y, page.height))), cache)
      else
        var lookup := GetEmbeddedFont(cache, doc.id, fontName, embedding);
        match drawError
        case Some(message) => DrawOutcome(Failure(PlainError(message)), lookup.cache)
        case None => DrawOutcome(Success(OverlayResult(opts.text, opts.x, opts.y, opts.page, fontSize, fontName)), lookup.cache)
  }

  /** Drawing twice with the same font on the same document embeds it once,
      whether or not the first draw itself succeeded: the second draw finds
      the font in the cache the first one left, answers as it would have
      from the original cache, and leaves that cache as it is. */
  lemma RedrawReusesFont(doc: Document, cache: FontCache, opts: OverlayOptions, opts2: OverlayOptions,
                         first: Font, second: Font, error1: Option<string>, error2: Option<string>)
    requires PlacementValid(doc, opts) && PlacementValid(doc, opts2)
    requires opts2.fontName.GetOr(DefaultFontName) == opts.fontName.GetOr(DefaultFontName)
    ensures var cache1 := DrawTextOnPage(doc, cache, opts, first, error1).cache;
            DrawTextOnPage(doc, cache1, opts2, second, error2) ==
              DrawOutcome(DrawTextOnPage(doc, cache, opts2, second, error2).result, cache1)
  {
    var name := opts.fontName.GetOr(DefaultFontName);
    SecondLookupHitsCache(cache, doc.id, name, first, second);
  }
}

=== FILE: seqs.dfy ===
/** Sequence helpers behind JavaScript's `Array.prototype.find`, `filter` and `map`. */
module Seqs {
  import opened Wrappers

  /** Index of the first element satisfying `p` (`findIndex`), or None. */
  function FirstIndex<T>(s: seq<T>, p: T -> bool): (r: Option<nat>)
    ensures r.Some? ==> r.value < |s| && p(s[r.value])
    ensures r.Some? ==> forall j :: 0 <= j < r.value ==> !p(s[j])
    ensures r.None? <==> forall j :: 0 <= j < |s| ==> !p(s[j])
  {
    if |s| == 0 then None
    else if p(s[0]) then Some(0)
    else
      match FirstIndex(s[1..], p)
      case None => None
      case Some(k) => Some(k + 1)
  }

  /** The elements of `s` satisfying `p`, in their original order. Defined
      from the last element so that a left-to-right loop can track it. */
  function Filter<T>(s: seq<T>, p: T -> bool): (r: seq<T>)
    ensures |r| <= |s|
    ensures forall i :: 0 <= i < |r| ==> p(r[i])
    ensures forall i :: 0 <= i < |r| ==> r[i] in s
    ensures forall i :: 0 <= i < |s| && p(s[i]) ==> s[i] in r
  {
    if |s| == 0 then []
    else
      var init := Filter(s[..|s| - 1], p);
      assert s == s[..|s| - 1] + [s[|s| - 1]];
      if p(s[|s| - 1]) then init + [s[|s| - 1]] else init
  }

  function Map<T, U>(s: seq<T>, f: T -> U): (r: seq<U>)
    ensures |r| == |s|
    ensures forall i :: 0 <= i < |s| ==> r[i] == f(s[i])
  {
    seq(|s|, i requires 0 <= i < |s| => f(s[i]))
  }

  /** Filtering one more element extends the filtered prefix by that element
      exactly when it satisfies `p`. */
  lemma FilterSnoc<T>(s: seq<T>, x: T, p: T -> bool)
    ensures Filter(s + [x], p) == if p(x) then Filter(s, p) + [x] else Filter(s, p)
  {
    assert (s + [x])[..|s + [x]| - 1] == s;
  }

  lemma MapSnoc<T, U>(s: seq<T>, x: T, f: T -> U)
    ensures Map(s + [x], f) == Map(s, f) + [f(x)]
  {
  }

  /** Two predicates that agree on every element of `s` filter it identically. */
  lemma {:induction false} FilterCongruent<T>(s: seq<T>, p: T -> bool, q: T -> bool)
    requires forall i :: 0 <= i < |s| ==> (p(s[i]) <==> q(s[i]))
    ensures Filter(s, p) == Filter(s, q)
  {
    if |s| > 0 {
      FilterCongruent(s[..|s| - 1], p, q);
    }
  }
}

=== FILE: session.dfy ===
/** The store holding at most one open document and its modification flag. */
module Session {
  import opened Wrappers
  import opened ToolErrors
  import opened Fields

  datatype PdfSession = PdfSession(
    document: Document,
    filePath: string,
    originalPath: string,
    pageCount: nat,
    isModified: bool)

  /** The store's state: the active session, or None. */
  type Store = Option<PdfSession>

  /** Nothing is open when the program starts. */
  const Initial: Store := None

  const NoSessionMessage: string := "No active PDF session"

  /** `isSessionActive`: a session is open exactly when the store has left
      its start state. */
  function IsSessionActive(store: Store): (active: bool)
    ensures active <==> store != Initial
  {
    store.Some?
  }

  /** `getActiveSession`: the stored session, or a plain error when none is open. */
  function GetActiveSession(store: Store): (r: Result<PdfSession, Thrown>)
    ensures r.Success? <==> IsSessionActive(store)
    ensures r.Success? ==> store == Some(r.value)
    ensures r.Failure? ==> r.error == PlainError(NoSessionMessage)
  {
    match store
    case Some(s) => Success(s)
    case None => Failure(PlainError(NoSessionMessage))
  }

  /** `setActiveSession`: the given session replaces whatever was stored. */
  function SetActiveSession(store: Store, session: PdfSession): (r: Store)
    ensures IsSessionActive(r) && GetActiveSession(r) == Success(session)
  {
    Some(session)
  }

  /** `markSessionModified`: sets the flag of an open session and changes
      nothing else; without a session it does nothing. */
  function MarkSessionModified(store: Store): (r: Store)
    ensures IsSessionActive(r) <==> IsSessionActive(store)
    ensures r.Some? ==> r.value.isModified
    ensures r.Some? ==> r.value.(isModified := store.value.isModified) == store.value
  {
    match store
    case Some(s) => Some(s.(isModified := true))
    case None => None
  }

  /** `clearSession`: afterwards nothing is open. */
  function ClearSession(store: Store): (r: Store)
    ensures !IsSessionActive(r)
    ensures GetActiveSession(r) == Failure(PlainError(NoSessionMessage))
  {
    None
  }

  /** At start-up no session is active and asking for one fails. */
  lemma InitiallyInactive()
    ensures !IsSessionActive(Initial)
    ensures GetActiveSession(Initial).Failure?
  {
  }

  /** Marking twice is the same as marking once. */
  lemma MarkModifiedIdempotent(store: Store)
    ensures MarkSessionModified(MarkSessionModified(store)) == MarkSessionModified(store)
  {
  }
}

=== FILE: text.dfy ===
/** Text extraction: the text runs of a page (the extraction library's
    items, reduced to the members the code reads), joined page text, and
    positioned text items. */
module TextExtraction {
  import opened Wrappers
  import opened Seqs
  import opened JsStrings
  import opened PdfErrors
  import opened ToolErrors
  import opened Loader

  /** A text run's transformation matrix; `e` and `f` are its translation. */
  datatype Transform = Transform(a: real, b: real, c: real, d: real, e: real, f: real)

  /** One item of a page's text content. Marked-content items carry no
      `str`; `width`/`height` may be absent. */
  datatype RawItem = RawItem(
    str: Option<string>,
    transform: Option<Transform>,
    width: Option<real>,
    height: Option<real>)

  /** A document as the text library sees it: each page's items. */
  datatype TextDoc = TextDoc(pages: seq<seq<RawItem>>)

  datatype TextItem = TextItem(text: string, x: real, y: real, width: real, height: real)

  /** A page's text, with positioned items only when they were asked for. */
  datatype PageText = PageText(page: int, text: string, items: Option<seq<TextItem>>)

  predicate HasStr(item: RawItem) {
    item.str.Some?
  }

  predicate IsPositioned(item: RawItem) {
    item.str.Some? && item.transform.Some?
  }

  function StrOf(item: RawItem): string {
    item.str.GetOr("")
  }

  const Untransformed: Transform := Transform(1.0, 0.0, 0.0, 1.0, 0.0, 0.0)

  /** The positioned item built from a run: its translation as position,
      missing sizes as 0. Only applied to runs with text and a transform. */
  function Project(item: RawItem): TextItem {
    TextItem(
      StrOf(item),
      item.transform.GetOr(Untransformed).e,
      item.transform.GetOr(Untransformed).f,
      item.width.GetOr(0.0),
      item.height.GetOr(0.0))
  }

  /** The `str` of every item that has one, in order. */
  function TextParts(items: seq<RawItem>): seq<string> {
    Map(Filter(items, HasStr), StrOf)
  }

  /** The positioned items of a page, in order. */
  function PositionedItems(items: seq<RawItem>): seq<TextItem> {
    Map(Filter(items, IsPositioned), Project)
  }

  /** A page's text as `extractPageText` forms it. */
  function PageJoin(items: seq<RawItem>): string {
    Join(TextParts(items), " ")
  }

  /** `loadPdfForText`: the same opening sequence as `loadPdf`, so every
      outcome is the one `OpenChecked` states for it, but a parse error
      mentioning "password" marks a protected file. */
  function LoadPdfForText(probe: FileProbe<TextDoc>): (r: Result<TextDoc, Thrown>)
    ensures r == OpenChecked(probe, "password")
    ensures r.Success? <==> PassesFileChecks(probe) && probe.parse.Parsed?
    ensures r.Success? ==> r.value == probe.parse.doc
    ensures r == Failure(PdfFailure(ProtectedPdf(probe.path))) <==>
      && PassesFileChecks(probe)
      && probe.parse.ParseFailed? && probe.parse.failure.ErrorThrown?
      && Contains(LowerAscii(probe.parse.failure.message), "password")
  {
    OpenChecked(probe, "password")
  }

  /** The loop of `extractPageText` and `extractAllText` collecting the parts. */
  method CollectParts(items: seq<RawItem>) returns (parts: seq<string>)
    ensures parts == TextParts(items)
  {
    parts := [];
    var i := 0;
    while i < |items|
      invariant 0 <= i <= |items|
      invariant parts == TextParts(items[..i])
    {
      assert items[..i + 1] == items[..i] + [items[i]];
      FilterSnoc(items[..i], items[i], HasStr);
      if items[i].str.Some? {
        parts := parts + [items[i].str.value];
      }
      i := i + 1;
    }
    assert items[..|items|] == items;
  }

  /** One more run extends the positioned items by its projection exactly
      when it has text and a transform. */
  lemma PositionedPrefix(items: seq<RawItem>, i: nat)
    requires i < |items|
    ensures PositionedItems(items[..i + 1]) ==
      if IsPositioned(items[i]) then PositionedItems(items[..i]) + [Project(items[i])]
      else PositionedItems(items[..i])
  {
    assert items[..i + 1] == items[..i] + [items[i]];
    FilterSnoc(items[..i], items[i], IsPositioned);
    MapSnoc(Filter(items[..i], IsPositioned), items[i], Project);
  }

  /** The loop of `extractTextWithPositions`: one text part per positioned
      item, the part being the item's text. */
  method CollectPositioned(items: seq<RawItem>) returns (found: seq<TextItem>, parts: seq<string>)
    ensures found == PositionedItems(items)
    ensures |parts| == |found|
    ensures forall k :: 0 <= k < |found| ==> parts[k] == found[k].text
  {
    found := [];
    parts := [];
    var i := 0;
    while i < |items|
      invariant 0 <= i <= |items|
      invariant found == PositionedItems(items[..i])
      invariant |parts| == |found|
      invariant forall k :: 0 <= k < |found| ==> parts[k] == found[k].text
    {
      PositionedPrefix(items, i);
      if items[i].str.Some? && items[i].transform.Some? {
        var item := Project(items[i]);
        found := found + [item];
        parts := parts + [item.text];
      }
      i := i + 1;
    }
    assert items[..|items|] == items;
  }

  /** `extractPageText`: open, check the page number against [1, numPages],
      then join the page's parts with single spaces; no items are attached. */
  method ExtractPageText(probe: FileProbe<TextDoc>, page: int) returns (r: Result<PageText, Thrown>)
    ensures LoadPdfForText(probe).Failure? ==> r == Failure(LoadPdfForText(probe).error)
    ensures LoadPdfForText(probe).Success? && (page < 1 || page > |probe.parse.doc.pages|) ==>
      r == Failure(PdfFailure(InvalidPage(page, |probe.parse.doc.pages|)))
    ensures LoadPdfForText(probe).Success? && 1 <= page <= |probe.parse.doc.pages| ==> r.Success?
    ensures r.Success? ==>
      && 1 <= page <= |probe.parse.doc.pages|
      && r.value == PageText(page, PageJoin(probe.parse.doc.pages[page - 1]), None)
  {
    var loaded := LoadPdfForText(probe);
    if loaded.Failure? {
      return Failure(loaded.error);
    }
    var doc := loaded.value;
    var totalPages := |doc.pages|;
    if page < 1 || page > totalPages {
      return Failure(PdfFailure(InvalidPage(page, totalPages)));
    }
    var parts := CollectParts(doc.pages[page - 1]);
    r := Success(PageText(page, Join(parts, " "), None));
  }

  /** `extractAllText`: one entry per page, numbered 1 to numPages in order. */
  method ExtractAllText(probe: FileProbe<TextDoc>) returns (r: Result<seq<PageText>, Thrown>)
    ensures LoadPdfForText(probe).Failure? ==> r == Failure(LoadPdfForText(probe).error)
    ensures r.Success? <==> LoadPdfForText(probe).Success?
    ensures r.Success? ==>
      && |r.value| == |probe.parse.doc.pages|
      && forall k :: 0 <= k < |r.value| ==>
           r.value[k] == PageText(k + 1, PageJoin(probe.parse.doc.pages[k]), None)
  {
    var loaded := LoadPdfForText(probe);
    if loaded.Failure? {
      return Failure(loaded.error);
    }
    var doc := loaded.value;
    var results: seq<PageText> := [];
    var pageNum := 1;
    while pageNum <= |doc.pages|
      invariant 1 <= pageNum <= |doc.pages| + 1
      invariant |results| == pageNum - 1
      invariant forall k :: 0 <= k < |results| ==> results[k] == PageText(k + 1, PageJoin(doc.pages[k]), None)
    {
      var parts := CollectParts(doc.pages[pageNum - 1]);
      results := results + [PageText(pageNum, Join(parts, " "), None)];
      pageNum := pageNum + 1;
    }
    r := Success(results);
  }

  /** `extractTextWithPositions`: open, check the page number, then keep the
      items having both text and a transform; the page text joins exactly
      those items' texts. */
  method ExtractTextWithPositions(probe: FileProbe<TextDoc>, page: int) returns (r: Result<PageText, Thrown>)
    ensures LoadPdfForText(probe).Failure? ==> r == Failure(LoadPdfForText(probe).error)
    ensures LoadPdfForText(probe).Success? && (page < 1 || page > |probe.parse.doc.pages|) ==>
      r == Failure(PdfFailure(InvalidPage(page, |probe.parse.doc.pages|)))
    ensures LoadPdfForText(probe).Success? && 1 <= page <= |probe.parse.doc.pages| ==> r.Success?
    ensures r.Success? ==>
      && 1 <= page <= |probe.parse.doc.pages|
      && r.value.page == page
      && r.value.items == Some(PositionedItems(probe.parse.doc.pages[page - 1]))
      && r.value.text == Join(Map(r.value.items.value, (t: TextItem) => t.text), " ")
  {
    var loaded := LoadPdfForText(probe);
    if loaded.Failure? {
      return Failure(loaded.error);
    }
    var doc := loaded.value;
    var totalPages := |doc.pages|;
    if page < 1 || page > totalPages {
      return Failure(PdfFailure(InvalidPage(page, totalPages)));
    }
    var found, parts := CollectPositioned(doc.pages[page - 1]);
    assert parts == Map(found, (t: TextItem) => t.text);
    r := Success(PageText(page, Join(parts, " "), Some(found)));
  }

  /** Each positioned item comes from a run with text and a transform, at the
      transform's translation, with missing sizes read as 0. */
  lemma PositionedItemsFaithful(items: seq<RawItem>, k: nat)
    requires k < |PositionedItems(items)|
    ensures var t := PositionedItems(items)[k];
            exists item :: item in items && IsPositioned(item)
              && t.text == item.str.value
              && t.x == item.transform.value.e && t.y == item.transform.value.f
              && t.width == item.width.GetOr(0.0) && t.height == item.height.GetOr(0.0)
  {
    var kept := Filter(items, IsPositioned);
    assert kept[k] in items;
  }

  /** When every run with text also has a transform, both single-page
      extractors produce the same page text. */
  lemma SameTextWhenAllPositioned(items: seq<RawItem>)
    requires forall i :: 0 <= i < |items| && HasStr(items[i]) ==> IsPositioned(items[i])
    ensures Join(Map(PositionedItems(items), (t: TextItem) => t.text), " ") == PageJoin(items)
  {
    FilterCongruent(items, HasStr, IsPositioned);
    assert Map(PositionedItems(items), (t: TextItem) => t.text) == TextParts(items);
  }
}

=== FILE: wrappers.dfy ===
/** Optional values and success-or-error results, standing in for the
    source's `undefined`/`null` and for the exceptions it throws. */
module Wrappers {

  datatype Option<+T> = None | Some(value: T) {

    /** The value, or `default` when absent (JavaScript's `??` and `||` on an optional). */
    function GetOr(default: T): T {
      match this
      case Some(v) => v
      case None => default
    }
  }

  datatype Result<+T, +E> = Success(value: T) | Failure(error: E)
}

=== FILE: writer.dfy ===
/** Filling form fields, and the output-path rule of saving. */
module Writer {
  import opened Wrappers
  import opened JsStrings
  import opened PdfErrors
  import opened Fields

  /** The value handed to a fill: a string or a boolean. */
  datatype InputValue = TextInput(text: string) | FlagInput(flag: bool)

  /** `String(value)`: a string is its own string form; a boolean is
      "true" exactly when it is true and "false" exactly when it is false. */
  function Stringify(v: InputValue): (s: string)
    ensures v.TextInput? ==> s == v.text
    ensures v.FlagInput? ==> (s == "true" <==> v.flag) && (s == "false" <==> !v.flag)
  {
    match v
    case TextInput(s) => s
    case FlagInput(b) => BoolText(b)
  }

  /** What a successful fill reports. */
  datatype FilledField = FilledField(
    name: string,
    fieldType: FieldType,
    value: FieldValue,
    previousValue: FieldValue)

  datatype FillOutcome = FillOutcome(document: Document, filled: FilledField)

  /** The text a text field receives: the value's string form with the
      surrounding whitespace removed, so `true` becomes "true". */
  function FillTextField(value: InputValue): (text: string)
    ensures Trimmed(text)
    ensures value.FlagInput? ==> text == BoolText(value.flag)
    ensures value.TextInput? ==> text == Trim(value.text)
  {
    FlagTextTrimmed(value);
    Trim(Stringify(value))
  }

  /** The string form of a boolean has nothing to trim. */
  lemma FlagTextTrimmed(value: InputValue)
    ensures value.FlagInput? ==> Trim(Stringify(value)) == BoolText(value.flag)
  {
    if value.FlagInput? {
      assert Trimmed(BoolText(value.flag));
      TrimOfTrimmed(BoolText(value.flag));
    }
  }

  /** The state a checkbox receives: a boolean as given; a string checks
      the box exactly when it is "true". */
  function FillCheckbox(value: InputValue): (checked: bool)
    ensures value.FlagInput? ==> checked == value.flag
    ensures value.TextInput? ==> (checked <==> value.text == "true")
  {
    match value
    case FlagInput(b) => b
    case TextInput(s) => s == "true"
  }

  /** A checkbox filled with a value's string form ends up as one filled
      with the value itself. */
  lemma CheckboxReadsStringForm(value: InputValue)
    ensures FillCheckbox(TextInput(Stringify(value))) == FillCheckbox(value)
  {
  }

  /** Radio groups and dropdowns: the value's string form must be one of the
      declared options, and is then the selection. */
  function FillChoice(options: seq<string>, fieldName: string, value: InputValue): (r: Result<string, PdfError>)
    ensures r.Success? <==> Stringify(value) in options
    ensures r.Success? ==> r.value == Stringify(value)
    ensures r.Failure? ==> r.error == InvalidFieldValue(fieldName, Stringify(value), options)
  {
    var choice := Stringify(value);
    if choice in options then Success(choice)
    else Failure(InvalidFieldValue(fieldName, choice, options))
  }

  /** Whether the field's kind admits `value`: only choice fields restrict it. */
  predicate Admits(kind: FieldKind, value: InputValue) {
    (kind.RadioGroupField? || kind.DropdownField?) ==> Stringify(value) in kind.options
  }

  /** A field's new state together with the value reported for it. */
  datatype KindFill = KindFill(kind: FieldKind, value: FieldValue)

  /** What reading a filled field of kind `kind` back gives, when the fill
      reported `reported`: setting a text field to the empty string removes
      its value, so it reads back as null; otherwise the reported value. */
  function ReadBack(kind: FieldKind, reported: FieldValue): FieldValue {
    if kind.TextField? && reported == StringValue("") then NullValue else reported
  }

  /** The type-specific part of a fill. The new state keeps the field's type
      and options, the reported value is what the type's coercion gives, and
      reading the new state back gives the reported value (null for an empty
      text), except for an unrecognised field, which is left as it was while
      the trimmed string form is still reported. */
  function FillKind(kind: FieldKind, fieldName: string, value: InputValue): (r: Result<KindFill, PdfError>)
    ensures r.Success? <==> Admits(kind, value)
    ensures r.Failure? ==> r.error == InvalidFieldValue(fieldName, Stringify(value), kind.options)
    ensures r.Success? ==>
      && DetectFieldType(r.value.kind) == DetectFieldType(kind)
      && ExtractFieldOptions(r.value.kind) == ExtractFieldOptions(kind)
      && !r.value.value.NullValue?
    ensures r.Success? && kind.TextField? ==> r.value.value == StringValue(FillTextField(value))
    ensures r.Success? && kind.CheckBoxField? ==> r.value.value == BoolValue(FillCheckbox(value))
    ensures r.Success? && (kind.RadioGroupField? || kind.DropdownField?) ==>
      r.value.value == StringValue(Stringify(value))
    ensures r.Success? && kind.DropdownField? ==> r.value.kind.selected == [Stringify(value)]
    ensures r.Success? && !kind.OtherField? ==> ExtractFieldValue(r.value.kind) == ReadBack(kind, r.value.value)
    ensures r.Success? && kind.OtherField? ==>
      r.value.kind == kind && r.value.value == StringValue(Trim(Stringify(value)))
  {
    match kind
    case TextField(multiline, _) =>
      var text := FillTextField(value);
      Success(KindFill(TextField(multiline, if text == "" then None else Some(text)), StringValue(text)))
    case CheckBoxField(_) =>
      var checked := FillCheckbox(value);
      Success(KindFill(CheckBoxField(checked), BoolValue(checked)))
    case RadioGroupField(options, _) =>
      (match FillChoice(options, fieldName, value)
       case Failure(e) => Failure(e)
       case Success(choice) => Success(KindFill(RadioGroupField(options, Some(choice)), StringValue(choice))))
    case DropdownField(options, _) =>
      (match FillChoice(options, fieldName, value)
       case Failure(e) => Failure(e)
       case Success(choice) => Success(KindFill(DropdownField(options, [choice]), StringValue(choice))))
    case OtherField =>
      Success(KindFill(OtherField, StringValue(Trim(Stringify(value)))))
  }

  /** The document with field `i` given the new state `kind`. */
  function Refill(doc: Document, i: nat, kind: FieldKind): Document
    requires i < |doc.fields|
  {
    doc.(fields := doc.fields[i := doc.fields[i].(kind := kind)])
  }

  /** `doc'` differs from `doc` at most in the state of field `i`, and that
      field keeps its type and options. */
  predicate OnlyStateOf(doc: Document, doc': Document, i: int) {
    && 0 <= i < |doc.fields| == |doc'.fields|
    && doc' == Refill(doc, i, doc'.fields[i].kind)
    && DetectFieldType(doc'.fields[i].kind) == DetectFieldType(doc.fields[i].kind)
    && ExtractFieldOptions(doc'.fields[i].kind) == ExtractFieldOptions(doc.fields[i].kind)
  }

  /** `fillField`: locate the first field with the name, refuse read-only
      fields, then set a value coerced to the field's type. */
  function FillField(doc: Document, fieldName: string, value: InputValue): (r: Result<FillOutcome, PdfError>)
    ensures !HasField(doc.fields, fieldName) ==> r == Failure(FieldNotFound(fieldName))
    ensures forall i :: IsFirstNamed(doc.fields, fieldName, i) ==>
      && (doc.fields[i].readOnly ==> r == Failure(ReadOnlyField(fieldName)))
      && (!doc.fields[i].readOnly ==> (r.Success? <==> Admits(doc.fields[i].kind, value)))
      && (!doc.fields[i].readOnly && r.Failure? ==>
            r.error == InvalidFieldValue(fieldName, Stringify(value), doc.fields[i].kind.options))
      && (r.Success? ==>
            && OnlyStateOf(doc, r.value.document, i)
            && r.value.filled.name == fieldName
            && r.value.filled.fieldType == DetectFieldType(doc.fields[i].kind)
            && r.value.filled.previousValue == ExtractFieldValue(doc.fields[i].kind))
      && (r.Success? ==>
            FillKind(doc.fields[i].kind, fieldName, value) ==
              Success(KindFill(r.value.document.fields[i].kind, r.value.filled.value)))
      && (r.Success? && !doc.fields[i].kind.OtherField? ==>
            ExtractFieldValue(r.value.document.fields[i].kind) == ReadBack(doc.fields[i].kind, r.value.filled.value))
    ensures r.Success? ==> !r.value.filled.value.NullValue?
  {
    match FindField(doc.fields, fieldName)
    case None => Failure(FieldNotFound(fieldName))
    case Some(i) =>
      var field := doc.fields[i];
      if field.readOnly then Failure(ReadOnlyField(fieldName))
      else
        match FillKind(field.kind, fieldName, value)
        case Failure(e) => Failure(e)
        case Success(fill) =>
          Success(FillOutcome(
            Refill(doc, i, fill.kind),
            FilledField(fieldName, DetectFieldType(field.kind), fill.value, ExtractFieldValue(field.kind))))
  }

  /** After a fill, looking the field up again finds the same record with
      only its current value changed: the value reported by the fill, read
      back (an empty text reads as null), unless the field is of an
      unrecognised kind. The record's previous value is
      the one the fill reported as previous. */
  lemma FillThenLookup(doc: Document, fieldName: string, value: InputValue, i: nat)
    requires IsFirstNamed(doc.fields, fieldName, i) && !doc.fields[i].readOnly
    requires Admits(doc.fields[i].kind, value)
    ensures var out := FillField(doc, fieldName, value);
            var before := GetFieldByName(doc, fieldName);
            var after := GetFieldByName(out.value.document, fieldName);
            && out.Success? && before.Success? && after.Success?
            && after.value == before.value.(currentValue := after.value.currentValue)
            && before.value.currentValue == out.value.filled.previousValue
            && (!doc.fields[i].kind.OtherField? ==>
                  after.value.currentValue == ReadBack(doc.fields[i].kind, out.value.filled.value))
  {
    var out := FillField(doc, fieldName, value).value;
    FirstNamedUnique(doc.fields, fieldName, i, FindField(doc.fields, fieldName).value);
    var doc' := out.document;
    assert OnlyStateOf(doc, doc', i);
    assert doc'.fields[i].name == fieldName && doc'.fields[i].widgets == doc.fields[i].widgets;
    assert IsFirstNamed(doc'.fields, fieldName, i);
    SamePage(doc, doc', doc.fields[i], doc'.fields[i]);
  }

  /** Filling the same value twice changes nothing the second time, and the
      second fill reports the first one's value, as read back, as previous
      (for a field of a recognised kind). */
  lemma FillIdempotent(doc: Document, fieldName: string, value: InputValue, i: nat)
    requires IsFirstNamed(doc.fields, fieldName, i) && !doc.fields[i].readOnly
    requires Admits(doc.fields[i].kind, value)
    ensures var out := FillField(doc, fieldName, value);
            var again := FillField(out.value.document, fieldName, value);
            && out.Success? && again.Success?
            && again.value.document == out.value.document
            && again.value.filled.value == out.value.filled.value
            && (!doc.fields[i].kind.OtherField? ==>
                  again.value.filled.previousValue == ReadBack(doc.fields[i].kind, out.value.filled.value))
  {
    var out := FillField(doc, fieldName, value).value;
    FirstNamedUnique(doc.fields, fieldName, i, FindField(doc.fields, fieldName).value);
    var fill := FillKind(doc.fields[i].kind, fieldName, value).value;
    var doc' := out.document;
    assert doc' == Refill(doc, i, fill.kind);
    assert IsFirstNamed(doc'.fields, fieldName, i);
    FirstNamedUnique(doc'.fields, fieldName, i, FindField(doc'.fields, fieldName).value);
    FillKindIdempotent(doc.fields[i].kind, fieldName, value);
    assert Refill(doc', i, fill.kind) == doc';
  }

  /** Re-applying a successful type-specific fill to its own result is a no-op. */
  lemma FillKindIdempotent(kind: FieldKind, fieldName: string, value: InputValue)
    requires FillKind(kind, fieldName, value).Success?
    ensures var fill := FillKind(kind, fieldName, value).value;
            FillKind(fill.kind, fieldName, value) == Success(fill)
  {
  }

  /** An unrecognised field is reported as filled with the value's trimmed
      string form, yet the document is left as it was and the field still
      reads as empty. */
  lemma FillUnrecognisedWritesNothing(doc: Document, fieldName: string, value: InputValue, i: nat)
    requires IsFirstNamed(doc.fields, fieldName, i)
    requires doc.fields[i].kind.OtherField? && !doc.fields[i].readOnly
    ensures FillField(doc, fieldName, value) ==
      Success(FillOutcome(doc, FilledField(fieldName, Text, StringValue(Trim(Stringify(value))), NullValue)))
    ensures ExtractFieldValue(FillField(doc, fieldName, value).value.document.fields[i].kind) == NullValue
  {
    assert Refill(doc, i, OtherField) == doc;
  }

  const FilledSuffix: string := "_filled.pdf"

  /** `originalPath.replace(/\.pdf$/i, '_filled.pdf')`: a final ".pdf" in
      any letter case becomes "_filled.pdf"; any other path is kept as it is. */
  function DefaultOutputPath(originalPath: string): (r: string)
    ensures HasPdfExtension(originalPath) ==>
      && EndsWith(r, FilledSuffix)
      && r[..|r| - |FilledSuffix|] == originalPath[..|originalPath| - 4]
    ensures !HasPdfExtension(originalPath) ==> r == originalPath
  {
    if HasPdfExtension(originalPath) then originalPath[..|originalPath| - 4] + FilledSuffix
    else originalPath
  }

  /** The default target differs from the original exactly when the original
      ends in ".pdf". */
  lemma DefaultOutputDiffers(originalPath: string)
    ensures DefaultOutputPath(originalPath) != originalPath <==> HasPdfExtension(originalPath)
  {
    if HasPdfExtension(originalPath) {
      assert |DefaultOutputPath(originalPath)| == |originalPath| + 7;
    }
  }

  /** What the filesystem does with the serialised bytes: they are written,
      or some step fails with an `Error` message (or a non-`Error` value). */
  datatype WriteOutcome = Written(bytes: nat) | WriteFailed(reason: Option<string>)

  datatype SaveResult = SaveResult(outputPath: string, bytesWritten: nat)

  const SamePathReason: string := "Output path cannot be the same as original file"

  /** `savePdf`: the target is the given path or the default one; a target
      that resolves to the original file is refused before anything is
      written; otherwise the outcome is that of the write. `resolve` is
      the platform's path resolution. */
  function SavePdf(originalPath: string, outputPath: Option<string>, resolve: string -> string, write: WriteOutcome): (r: Result<SaveResult, PdfError>)
    ensures var target := resolve(outputPath.GetOr(DefaultOutputPath(originalPath)));
      && (target == resolve(originalPath) ==> r == Failure(SaveFailed(target, SamePathReason)))
      && (r.Success? <==> target != resolve(originalPath) && write.Written?)
      && (r.Success? ==> r.value.outputPath == target && r.value.bytesWritten == write.bytes)
      && (target != resolve(originalPath) && write.WriteFailed? ==>
            r == Failure(SaveFailed(target, write.reason.GetOr("Unknown error"))))
  {
    var target := resolve(outputPath.GetOr(DefaultOutputPath(originalPath)));
    if target == resolve(originalPath) then Failure(SaveFailed(target, SamePathReason))
    else
      match write
      case Written(n) => Success(SaveResult(target, n))
      case WriteFailed(reason) => Failure(SaveFailed(target, reason.GetOr("Unknown error")))
  }

  /** Without an explicit target, a document whose path does not end in ".pdf"
      can never be saved: the default target is the original itself. */
  lemma SaveWithoutTargetNeedsPdfName(originalPath: string, resolve: string -> string, write: WriteOutcome)
    requires !HasPdfExtension(originalPath)
    ensures SavePdf(originalPath, None, resolve, write) ==
      Failure(SaveFailed(resolve(originalPath), SamePathReason))
  {
  }
}
